=== FILE: README.md ===
# AI Advisor widget and lead-capture endpoint, in Dafny

This project models the interactive part of the Falcon Group International
marketing site. That part is the "AI Advisor" widget (the `AIAdvisor` React
component in `App.tsx`) and the lead-capture endpoint `api/send-email.js`
that the widget posts contact details to.

- **Advisor state machine** (`advisor.dfy`, module `Advisor`). The
  component's React state is one immutable record, `AdvisorState`. Every
  handler (`startLiveSession`, `selectInteractionMode`,
  `sendConsultationQuery`, `processAudioQuery`, `startVoiceInput`,
  `speakResponse`, `stopSpeaking`, `stopSession`, `endSessionWithSummary`,
  `handleEmailSubmit`) and every browser callback is a pure function. It maps
  the state to a `Transition`: a new state plus the list of requests made to
  the outside world (a consultation, the lead POST, a `setTimeout`, a speech
  call). The Groq reply and the `fetch` status arrive as parameters of the
  event that caused the call. Each timer firing is its own event. The
  response panel and the error line hold a `Message`: either a text from
  outside (a reply, a thrown error's message) or one of the widget's fixed
  messages, whose exact wording `TextOf` gives. `Step`
  dispatches one `Event` and `Run` folds a sequence of them. `Offered` says
  which events the rendered markup makes possible in a given state.
- **Transcript** (`transcript.dfy`). The conversation history is a
  `seq<Turn>`. It is rendered as the numbered, blank-line-separated
  transcript used by the on-screen summary (visitor labelled "You") and by
  the lead message (visitor labelled "User").
- **Text** (`text.dfy`). JavaScript's `trim`, the decimal rendering of a
  list index, and `join`.
- **Lead endpoint** (`lead_api.dfy`, module `LeadApi`). The handler is a pure
  function from the HTTP method and the parsed JSON body to the response
  status and JSON body.
- **Client and server together** (`lead_flow.dfy`). The widget's lead
  request is fed to the handler. This shows that the two validators
  disagree.
- **Scenarios** (`scenarios.dfy`). End-to-end runs from the first render.
- **The recogniser callback as written** (`stale_closure.dfy`, module
  `StaleClosure`). The widget together with the mode its speech
  recogniser's callback captured. This shows that, when each consultation
  completes before the next control is used, spoken questions are never
  consulted on as the code stands (see Findings).

Behaviour of the code worth noting:
- A failed consultation deactivates the session (`App.tsx:289`,
  `App.tsx:312`) instead of leaving it active.
- The mode is not fixed for the page's lifetime. `stopSession` returns it to
  none.
- Restarting after a failure keeps the old history and mode
  (`App.tsx:248-249`).
- A phone-only lead is accepted by the widget but rejected by the server.

## Model

| member | source | states |
|---|---|---|
| Advisor.StopSession | App.tsx:190-196 | Closing makes the session inactive, clears the response, the input, the history and the mode, and keeps every other field (error, email, phone, form flag, speech flags) as it was. |
| Advisor.StopSessionIdempotent | App.tsx:190-196 | Closing a closed session changes nothing. |
| Advisor.StartLiveSession | App.tsx:198-255 | Without an API key only the error changes: it becomes the missing-key message and the session stays inactive. With a key the error is cleared, the session becomes active and shows the welcome text, speech support follows the browser's capabilities, and the earlier history and mode are kept. |
| Advisor.StartKeepsRest | App.tsx:198-249 | A start with a key changes only the speech handles and support flag, the error, the activity and the response. The typed input, the email and phone, the form flag, the listening and speaking flags, the history and the mode all carry over. |
| Advisor.SelectInteractionMode | App.tsx:257-263 | Choosing a mode records it and shows that mode's prompt; nothing else changes. |
| Advisor.TextOfEmptyIff | App.tsx:324 | Only the empty plain text renders as nothing: every fixed message of the widget has wording, so the `!response` guards hold exactly for the empty response. |
| Advisor.ConsultError | App.tsx:288 | The error kept after a failed consultation is never the empty message: it is the thrown message when that is non-empty, and the default consultation error otherwise. |
| Advisor.ConsultErrorText | App.tsx:288 | The error line after a failed consultation reads the thrown message, or the default text when that message is empty, and is never empty. |
| Advisor.Exchange | App.tsx:299-313 | A consultation makes exactly one service call, with the query, and it comes first. On a reply the state is the old one with exactly four changes: the history gains the question and then the answer, the reply is shown, and the error and the input are cleared. The only further request is the speaking timer, made only for a spoken query. On a failure the error is shown, the session is deactivated and the processing notice stays on screen. The history and mode are unchanged and nothing but the call is requested. |
| Advisor.SendConsultationQuery | App.tsx:293-314 | A blank (whitespace-only) chat input sets the empty-query error and makes no call, leaving the history unchanged. Any other input is sent as typed and makes exactly one call. |
| Advisor.ProcessAudioQuery | App.tsx:265-291 | A blank spoken query is ignored with no error and no call. Any other query is exactly a consultation on the spoken text that schedules the automatic speaking of a reply: one call, then the speaking timer on success. |
| Advisor.StartVoiceInput | App.tsx:316-321 | Recognition starts (and listening is flagged) exactly when there is a recogniser, nothing is being heard and the mode is audio; otherwise nothing happens. |
| Advisor.StopVoiceInput | App.tsx:554-559 | The Stop button asks the recogniser to stop, and makes no other request, exactly when listening with a recogniser. It changes no state itself. |
| Advisor.RecognitionResult | App.tsx:215-224 | A consultation, on the transcript, happens exactly when the mode is audio and the transcript is not blank, and the mode never changes. Without one the transcript only becomes the input text and listening ends. With a reply, the history gains the transcript and the answer, the reply is shown, the error and the input are cleared, listening has ended, and speaking is scheduled. With a failure, the history is kept, the thrown message (or the default) becomes the error, the processing notice stays, the transcript stays in the input, and the session is deactivated. |
| Advisor.RecognitionOutcome | App.tsx:265-290 | A consulted transcript that gets a reply leaves the session live. One whose consultation fails requests only that consultation: the speaking timer is never set. |
| Advisor.RecognitionKeepsRest | App.tsx:215-224 | A recognised transcript changes only the input, the listening flag, the response, the error, the history and the session's activity. Contact details, the form, the mode and the speech flags and handles are untouched. |
| Advisor.SpeakResponse | App.tsx:323-357 | Speech happens exactly when there is a synthesiser, a non-empty response and nothing already being spoken. It then cancels queued speech before speaking the current response, so only one utterance is active. |
| Advisor.AutoSpeakFired | App.tsx:279-283 | The delayed speak produces speech exactly when there is a synthesiser, nothing is being spoken and there is a response to say. It then cancels queued speech and speaks the current response, and nothing else. |
| Advisor.EndSessionWithSummary | App.tsx:366-373 | The response becomes the summary of the whole current history and the contact form opens. Nothing else changes. |
| Advisor.LeadMessage | App.tsx:393 | The lead message is the intro line and the email, then the phone label and the phone, then the summary heading and the transcript with the visitor labelled "User", then the closing line. Each part sits at its fixed position, and nothing else is added. |
| Advisor.HandleEmailSubmit | App.tsx:375-412 | With neither email nor phone, the contact error is shown and nothing is posted. Otherwise the lead is posted exactly once. A 2xx answer hides the form, clears email and phone, thanks the visitor and schedules the automatic close. Any other status or a network error shows the matching error and keeps the form and its contents. |
| Advisor.SubmitKeepsConversation | App.tsx:375-412 | Submitting a lead, whatever the answer, leaves the history, the mode and the session's activity as they were. |
| Advisor.OfferedControls | App.tsx:472-595 | The Initialize button exists only while no session is live. Close, the mode buttons and the summary button exist only in a live session. The mode buttons need that no mode is chosen yet. The summary button needs a response on screen. The chat input exists only in chat mode and the microphone only in audio mode. The microphone's Speak button works only while not listening, and its Stop button only while listening. The contact inputs exist only while the form is shown. No stop-speaking control is ever rendered. |
| Advisor.StepHistory | App.tsx:276 | The two resets empty the history. Every other event either keeps the history or appends exactly one question and one answer after it. |
| Advisor.StepKeepsAlternation | App.tsx:307 | No event breaks the question/answer alternation of the history. |
| Advisor.RunKeepsAlternation | App.tsx:307 | Over any run of events the history stays an alternation of questions and answers starting with a question, so its length is always even. |
| Advisor.RunAppendsOnly | App.tsx:276 | Over any run without a reset, the old history is a prefix of the new one: entries are never removed or reordered. |
| Advisor.StepModeLocked | App.tsx:472-502 | Among the events the markup offers, a chosen mode changes only through a reset, which returns it to none. An unset mode changes only through a mode choice. |
| Advisor.RunModeLocked | App.tsx:475 | Once a mode is chosen, no run of offered events without a reset changes it. |
| Advisor.NetworkCallsGuarded | App.tsx:294-297 | A consultation is requested only by sending a non-blank chat input, or by a non-blank transcript heard in audio mode. A lead is posted only by a submit that has an email or a phone. |
| Advisor.FailureThenRestart | App.tsx:309-313 | A failed chat consultation shows the error and deactivates the session but keeps its history and mode. Restarting with a key resumes that same conversation in the same mode. |
| Transcript.RenderSnoc | App.tsx:367-369 | Adding an entry to the history adds a blank line and that entry's line, numbered after all earlier ones, at the end of the transcript. Earlier text is untouched. |
| Transcript.RenderExchange | App.tsx:367-369 | A successful exchange adds the question and the answer to the transcript as its next two numbered lines. |
| Transcript.LineNumber | App.tsx:368 | Each line of the transcript begins with a run of digits that reads back as the entry's index plus one. The numbering is therefore 1-based and can be recovered from the text. |
| Transcript.RenderTwo | App.tsx:366-373 | A two-entry history renders as "1. {label}: {text}" for the first entry, then a blank line, then "2. {label}: {text}" for the second. Each label is the speaker's, with the caller's label standing for the visitor. |
| Transcript.BuildTranscript | App.tsx:393 | Building the transcript entry by entry, as the map-and-join does, gives exactly the rendered transcript. |
| Text.SkipSpaces | App.tsx:294 | Scanning forward from a position stops at the first non-whitespace character, or at the end; everything skipped is whitespace. |
| Text.SkipSpacesBack | App.tsx:294 | Scanning backward from a position stops just after the last non-whitespace character, or at the start; everything skipped is whitespace. |
| Text.TrimStart | App.tsx:294 | Leading-whitespace removal yields a suffix of the input that starts with a non-space; it is empty exactly when the input is blank. |
| Text.TrimEnd | App.tsx:294 | Trailing-whitespace removal yields a prefix of the input that ends with a non-space; it is empty exactly when the input is blank. |
| Text.TrimEmptyIffBlank | App.tsx:266 | A query counts as empty after `trim` exactly when every character is JavaScript whitespace. |
| Text.ParseShowNat | App.tsx:368 | The decimal numeral used for an entry number reads back as that number. |
| Text.ShowNatInjective | App.tsx:393 | Different entry numbers render as different numerals. |
| Text.DigitPrefixOfNumeral | App.tsx:368 | A numeral followed by ". " is recovered as the leading run of digits. |
| Text.JoinSnoc | App.tsx:369 | Joining one more line adds a separator and that line at the end. |
| LeadApi.Handle | api/send-email.js:4-41 | Every non-POST method gets 405 "Method not allowed", whatever the body. A POST whose body is undefined or null gets 500 "Internal server error". A POST whose email, subject or message is missing or falsy (empty string, null, false, 0) gets 400 "Missing required fields". The status is 200 exactly for a POST carrying all three. |
| LeadApi.HandleEchoesLead | api/send-email.js:31-35 | A 200 response carries success true, the message "Lead captured successfully" and a lead that echoes email, subject and message unchanged. |
| LeadApi.PhoneIgnored | api/send-email.js:10 | Adding, changing or removing `phone` never changes the response: the field is neither required nor echoed. |
| LeadFlow.RequestFieldsRequired | api/send-email.js:12-14 | For the widget's all-string request, the server's required-field check passes exactly when email, subject and message are all non-empty. |
| LeadFlow.LeadMessageNonEmpty | App.tsx:393 | The lead message the widget builds is never empty. |
| LeadFlow.ServerAcceptsIffEmail | api/send-email.js:12-14 | The server accepts the widget's own lead request exactly when the email is non-empty, and answers 400 otherwise. |
| LeadFlow.PhoneOnlyLeadRejected | App.tsx:377-406 | A phone-only lead passes the widget's check and is posted with an empty email and the phone. The server answers 400, and the widget shows the submission error with the form and contact fields kept. |
| LeadFlow.LeadWithEmailAccepted | App.tsx:397-404 | A lead with an email is accepted and echoed by the server. The widget then hides the form, clears the contact fields and schedules the close, and when that fires the session is closed with its conversation forgotten. |
| LeadFlow.PhoneDoesNotMatterToServer | api/send-email.js:10 | The server gives the widget's request the same answer with or without its phone field. |
| Scenarios.ChatConsultation | App.tsx:293-314 | Starting with a key, choosing chat, typing a question and getting a reply leaves exactly [question, reply] in the history. The reply is on screen and the input cleared, and every step was offered by the markup. |
| Scenarios.StartWithoutKey | App.tsx:200-204 | Without a key the first start leaves the widget inactive with the missing-key error and makes no request. |
| Scenarios.AudioConsultation | App.tsx:215-283 | In audio mode a recognised question is consulted on at once. When the speech timer fires, the reply is spoken exactly once, after queued speech is cancelled. |
| Scenarios.TwoTurnSummary | App.tsx:366-373 | Asking for the summary of a two-entry conversation opens the form and shows a summary whose transcript reads "1. You: question", a blank line, "2. AI: answer". |
| Scenarios.TwoTurnLead | App.tsx:393 | The lead message for a two-entry conversation reads: intro and email, phone label and phone, summary heading, "1. User: question", a blank line, "2. AI: answer", and the closing line. |
| Scenarios.PhoneOnlyLeadPosted | App.tsx:377-395 | A phone-only lead is not refused by the widget: it is posted with the phone and an empty email. |
| StaleClosure.HeardAsWritten | App.tsx:215-224 | The recogniser callback as written: the audio query runs exactly when the mode the callback captured is audio and the transcript is not blank. Otherwise the transcript only fills the input and ends listening. |
| StaleClosure.StepAsWritten | App.tsx:198-224 | The widget as written differs from `Advisor.Step` only in the recogniser's mode. A start with a key in a browser with recognition captures the current mode, and nothing else changes the captured mode. A transcript heard while the captured mode is not audio only fills the input and ends listening. |
| StaleClosure.HeardJudgedByCapture | App.tsx:215-224 | As written, a transcript makes a request exactly when the captured mode is audio and the transcript is not blank, whatever the session's current mode. |
| StaleClosure.StepKeepsNeverAudio | App.tsx:198-263 | Every offered event keeps two facts: the captured mode is not audio, and neither is the mode of a session that is not live. |
| StaleClosure.RunKeepsNeverAudio | App.tsx:198-263 | The same two facts hold over any run of offered events. |
| StaleClosure.HeardNeverConsults | App.tsx:221 | As written, after any run of offered events from the first render, a recognised transcript is never consulted on, whatever mode the session is in. It only fills the input and ends listening. |
| StaleClosure.SpokenQuestionIgnored | App.tsx:221 | Start with recognition, choose audio, press Speak, speak a non-blank question: as written nothing is requested, and every step was offered by the markup. The intended widget consults on the question and schedules speaking the answer. |

## Left out

- The handlers are atomic on the current state. In the source, recognition's `onresult` reads the `interactionMode` captured when `startLiveSession` ran (App.tsx:221). As a consequence, when each consultation completes before the next control is used, `processAudioQuery` never runs. Neither do the automatic speaking, `speakResponse` or the utterance callbacks, which only a spoken query sets in motion. The exception needs overlapping requests. A chat consultation is still pending when the visitor closes, restarts and chooses audio. The pending call then fails, and its `catch` (App.tsx:312) deactivates the session while the mode stays audio. The next start (App.tsx:591) captures audio, and spoken questions are consulted on from then on. Module `StaleClosure` models the widget with atomic handlers and proves the claim for the consultation (see Findings). `Advisor` itself reads the current mode, which is the intended behaviour. The delayed speak likewise reads the `synth`, `isSpeaking` and `response` of an earlier render (App.tsx:279-283, App.tsx:324); the model uses the current values. React's batching of state updates, overlapping asynchronous calls, and replies arriving after the session was closed are not modelled either.
- The `catch` branch of `startLiveSession` (App.tsx:250-254) is not modelled. It runs only when a browser speech constructor throws.
- Browser speech APIs are reduced to capability flags and effects. Utterance rate, pitch and volume, voice selection (App.tsx:330-339) and the recogniser's language settings are left out.
- Timer delays (1000 ms before the automatic speaking and before the next-question prompt, 3000 ms before the automatic close) and time itself are not modelled. Each timer firing is a separate event, and any other event may come before it.
- The Groq client (services/groq.ts) is reduced to its outcome, a reply text or a thrown message (`Reply`). Its HTTP request, JSON parsing and fallback texts are not part of this model. Neither is services/gemini.ts.
- The contact form is never rendered in the source: `showEmailForm` is not read by the markup, and no input sets `email` or `phone`. The model keeps `EditEmail`/`EditPhone` events for the form's inputs and offers them while `showEmailForm` is set. `stopSpeaking` is likewise defined but never wired to a control, so `Offered` never offers it. `requestEmailCopy` (App.tsx:414-416) is the same as `SummaryRequested`.
- Logging (`console.log`/`console.error`, the ISO timestamp in api/send-email.js:23-28) is left out.
- JSON numbers are modelled as integers, so `NaN` and `-0` are not among the falsy values. `JSON.stringify` on the client and body parsing on the server are taken to carry the request unchanged. Exceptions in the handler other than destructuring an undefined or null body are not modelled.
- The processing notice (App.tsx:270, App.tsx:301) begins in the source with four characters: U+F8FF, "ü", "î" and "Ñ". They are the UTF-8 bytes of U+1F504 (the anticlockwise arrows emoji) decoded as Mac Roman. `ProcessingText` holds the emoji the site evidently means, not those four characters.
- JavaScript strings are UTF-16 code units. The model's strings are sequences of Unicode scalar values, and `trim`'s whitespace set is stated over those.
- Presentational components (`Header`, `Hero`, `ServicesSection`, `DNASection`, `Footer`, components/Layout.tsx), types.ts, and the base64/PCM helpers (App.tsx:9-51) have no behaviour to state.
- Advisor.UtteranceEnded, Advisor.StopSpeaking and Transcript.Lines are speech and rendering helpers. They are kept to close the set of events and to build the transcript. Their contracts only restate what they compute, and no property is claimed for them.

## Findings

| source | as written | input that shows it | evidently intended | confidence | as-written member | corrected member |
|---|---|---|---|---|---|---|
| App.tsx:221 | The recogniser's `onresult` tests `interactionMode` as captured when `startLiveSession` ran. A session can start only while none is live. When each consultation completes before the next control is used, the mode is then never audio. So the test is always false, and a spoken question is never consulted on. The exception is a chat consultation that fails after the visitor has closed, restarted and chosen audio, as described under Left out. | Initialize with a key and recognition, choose audio, press Speak, then a recognised non-blank question: nothing is requested. | In audio mode a recognised question is consulted on, and the reply is spoken after a second. | not executed | StaleClosure.HeardNeverConsults | Advisor.RecognitionResult |

=== FILE: advisor.dfy ===
/** The AI Advisor widget (the `AIAdvisor` component, App.tsx:174-416) as a
    state machine. The component's React state is one immutable record; every
    handler is a pure transition on it. What the handler asks of the outside
    world (a consultation request, the lead POST, a timer, a speech call) is
    returned as a list of effects, and what the outside world answers (the
    consultation reply, the HTTP status, a recognised transcript, a timer
    firing) arrives as an event or an event parameter. */
module Advisor {
  import opened Wrappers
  import opened Text
  import opened Transcript

  // ---------------------------------------------------------------------------
  // State
  // ---------------------------------------------------------------------------

  datatype Mode = Chat | Audio

  /** Which speech features the browser offers when the session starts. */
  datatype Capabilities = Capabilities(recognition: bool, synthesis: bool)

  /** The component's state. `hasRecognition` and `hasSynth` stand for the
      `recognition` and `synth` handles being non-null. */
  datatype AdvisorState = AdvisorState(
    isLiveActive: bool,
    error: Option<Message>,
    response: Message,
    inputText: string,
    mode: Option<Mode>,
    history: seq<Turn>,
    email: string,
    phone: string,
    showEmailForm: bool,
    isListening: bool,
    isSpeaking: bool,
    isSpeechSupported: bool,
    hasRecognition: bool,
    hasSynth: bool)

  /** The state on first render. */
  const Initial: AdvisorState := AdvisorState(
    false, None, Plain(""), "", None, [], "", "", false, false, false, false, false, false)

  /** The delayed callbacks the widget schedules with `setTimeout`. */
  datatype Timer =
    | AutoSpeak   // speak the reply after an audio exchange
    | NextPrompt  // ask for the next spoken question after speech ends
    | AutoClose   // close the session after the lead was accepted

  /** What a lead submission carries: the contact details and the
      conversation they refer to. */
  datatype Lead = Lead(email: string, phone: string, history: seq<Turn>)

  /** The JSON body of the POST to `/api/send-email`. */
  datatype LeadRequest = LeadRequest(email: string, phone: string, subject: string, message: string)

  /** Requests the widget makes of the outside world. */
  datatype Effect =
    | Consult(query: string)
    | PostLead(lead: Lead)
    | Schedule(timer: Timer)
    | StartRecognition
    | StopRecognition
    | CancelSpeech
    | Speak(message: Message)

  datatype Transition = Transition(state: AdvisorState, effects: seq<Effect>)

  /** The outcome of `consultStrategy`: the reply text, or the message of the
      error it threw. */
  datatype Reply = Answered(text: string) | Failed(message: string)

  /** The outcome of the lead `fetch`: an HTTP status, or a thrown network
      error. */
  datatype LeadOutcome = Responded(status: nat) | NetworkError

  /** `response.ok`: a 2xx status. */
  predicate LeadOk(o: LeadOutcome) {
    o.Responded? && 200 <= o.status <= 299
  }

  predicate Consults(effects: seq<Effect>) {
    exists i :: 0 <= i < |effects| && effects[i].Consult?
  }

  predicate Posts(effects: seq<Effect>) {
    exists i :: 0 <= i < |effects| && effects[i].PostLead?
  }

  // ---------------------------------------------------------------------------
  // Messages
  // ---------------------------------------------------------------------------

  /** What the response panel and the error line show: a text that came from
      outside (a consultation reply, a thrown error's message, or the empty
      string) or one of the widget's own messages, whose wording `TextOf`
      gives. */
  datatype Message =
    | Plain(text: string)
    | Welcome
    | ModeChosen(mode: Mode)
    | Processing
    | NextQuestion
    | Summary(history: seq<Turn>)
    | ThankYou
    | MissingKey
    | ConsultFailed
    | EmptyQuery
    | RecognitionFailed
    | AudioFailed
    | ContactMissing
    | SubmitFailed
    | NetworkFailed
  {
    /** Nothing to show: the empty string. */
    predicate IsEmpty() {
      this == Plain("")
    }
  }

  const WelcomeText: string := "Welcome to Falcon Group International AI Consultation. Please select your preferred interaction mode below."
  const ChatPromptText: string := "Chat mode selected. Type your strategic question below."
  const AudioPromptText: string := "Audio mode selected. Click the microphone to begin speaking."
  const ProcessingText: string := "\U{1F504} Processing your inquiry..."
  const NextQuestionText: string := "Your response has been delivered. Please speak your next question or say 'end session' to conclude."
  const ThankYouText: string := "Thank you! Your consultation summary has been sent to your email/phone. A member of our team will follow up shortly."
  const MissingKeyText: string := "Groq API Key is missing. Get your free key at https://console.groq.com and add it to .env"
  const ConsultFailedText: string := "An error occurred during the consultation. Make sure you've added your Groq API key to .env"
  const EmptyQueryText: string := "Please enter a consultation query."
  const RecognitionFailedText: string := "Speech recognition failed. Please try again."
  const AudioFailedText: string := "Audio response failed. Please try again."
  const ContactMissingText: string := "Please provide either an email address or phone number."
  const SubmitFailedText: string := "Failed to submit contact information. Please try again or contact us directly."
  const NetworkFailedText: string := "Network error. Please try again later."
  const SummaryHeader: string := "Session Summary:\n\n"
  const SummaryFooter: string := "\n\nPlease provide your contact information to receive this summary via email."

  /** The wording of every message, as the widget renders it. */
  function TextOf(m: Message): string {
    match m
    case Plain(text) => text
    case Welcome => WelcomeText
    case ModeChosen(mode) => if mode == Chat then ChatPromptText else AudioPromptText
    case Processing => ProcessingText
    case NextQuestion => NextQuestionText
    case Summary(h) => SummaryHeader + Render(h, SummaryUserLabel) + SummaryFooter
    case ThankYou => ThankYouText
    case MissingKey => MissingKeyText
    case ConsultFailed => ConsultFailedText
    case EmptyQuery => EmptyQueryText
    case RecognitionFailed => RecognitionFailedText
    case AudioFailed => AudioFailedText
    case ContactMissing => ContactMissingText
    case SubmitFailed => SubmitFailedText
    case NetworkFailed => NetworkFailedText
  }

  /** Only the empty plain text renders as nothing: every message of the
      widget's own has some wording, so `!response` and `!error` hold exactly
      for the empty plain text. */
  lemma TextOfEmptyIff(m: Message)
    ensures TextOf(m) == "" <==> m.IsEmpty()
  {
  }

  const LeadSubject: string := "New Falcon Group International Sales Lead"
  const LeadIntro: string := "New consultation request from:\nEmail: "
  const LeadPhoneLabel: string := "\nPhone: "
  const LeadSummaryLabel: string := "\n\nConversation Summary:\n"
  const LeadOutro: string := "\n\nPlease follow up with this potential client."

  /** `e.message || default`: an empty error message falls back to the
      default text, so the error line is never empty. */
  function ConsultError(message: string): (r: Message)
    ensures !r.IsEmpty()
    ensures message != "" ==> r.Plain? && r.text == message
    ensures message == "" ==> r == ConsultFailed
  {
    if message == "" then ConsultFailed else Plain(message)
  }

  /** The error line after a failed consultation reads the thrown message,
      or the default text when that message is empty; either way it is not
      empty. */
  lemma ConsultErrorText(message: string)
    ensures TextOf(ConsultError(message)) == (if message == "" then ConsultFailedText else message)
    ensures TextOf(ConsultError(message)) != ""
  {
  }

  // ---------------------------------------------------------------------------
  // Handlers
  // ---------------------------------------------------------------------------

  /** `stopSession`: closes the session and forgets the conversation. The
      error, the contact fields, the form flag and the speech flags are
      kept. */
  function StopSession(s: AdvisorState): (r: AdvisorState)
    ensures !r.isLiveActive && r.response == Plain("") && r.inputText == ""
    ensures r.history == [] && r.mode == None
    ensures r.(isLiveActive := s.isLiveActive, response := s.response, inputText := s.inputText,
               history := s.history, mode := s.mode) == s
  {
    s.(isLiveActive := false, response := Plain(""), inputText := "", history := [], mode := None)
  }

  /** `startLiveSession`. Without an API key only the error changes. With a
      key the error is cleared, the speech handles are set up for whatever
      the browser offers, the session becomes active and the welcome text is
      shown; the history and the mode of an earlier session are NOT reset. */
  function StartLiveSession(s: AdvisorState, hasKey: bool, caps: Capabilities): (r: Transition)
    ensures r.effects == []
    ensures !hasKey ==> r.state == s.(error := Some(MissingKey))
    ensures hasKey ==> r.state.isLiveActive && r.state.error == None && r.state.response == Welcome
    ensures hasKey ==> r.state.history == s.history && r.state.mode == s.mode
    ensures hasKey ==> r.state.isSpeechSupported == caps.recognition
    ensures hasKey ==> (r.state.hasRecognition <==> s.hasRecognition || caps.recognition)
    ensures hasKey ==> (r.state.hasSynth <==> s.hasSynth || caps.synthesis)
  {
    if !hasKey then
      Transition(s.(error := Some(MissingKey)), [])
    else
      Transition(s.(isSpeechSupported := caps.recognition,
                    hasRecognition := if caps.recognition then true else s.hasRecognition,
                    hasSynth := if caps.synthesis then true else s.hasSynth,
                    error := None, isLiveActive := true, response := Welcome), [])
  }

  /** A start with a key changes only the speech handles and support flag,
      the error, the activity and the response: the typed input, the
      contact details, the form and the listening and speaking flags carry
      over, as do the history and the mode. */
  lemma StartKeepsRest(s: AdvisorState, caps: Capabilities)
    ensures StartLiveSession(s, true, caps).state.(isSpeechSupported := s.isSpeechSupported,
              hasRecognition := s.hasRecognition, hasSynth := s.hasSynth, error := s.error,
              isLiveActive := s.isLiveActive, response := s.response) == s
  {
  }

  /** `selectInteractionMode`: records the mode and shows its prompt. */
  function SelectInteractionMode(s: AdvisorState, m: Mode): (r: AdvisorState)
    ensures r.mode == Some(m)
    ensures r.response == ModeChosen(m)
    ensures r.(mode := s.mode, response := s.response) == s
  {
    s.(mode := Some(m), response := ModeChosen(m))
  }

  /** The common part of a consultation once the query is known to be
      non-blank: clear the error, show the processing notice, call the
      service. On a reply the notice is replaced by the reply and the
      question and the answer are appended to the history; on an error the
      error is shown and the session deactivated, the processing notice
      staying on screen. */
  function Exchange(s: AdvisorState, query: string, reply: Reply, speakAfter: bool): (r: Transition)
    ensures |r.effects| > 0 && r.effects[0] == Consult(query)
    ensures r.state.mode == s.mode
    ensures reply.Answered? ==>
      && r.state == s.(error := None, response := Plain(reply.text),
                       history := s.history + [Turn(User, query), Turn(Ai, reply.text)], inputText := "")
      && r.effects == (if speakAfter then [Consult(query), Schedule(AutoSpeak)] else [Consult(query)])
    ensures reply.Failed? ==>
      && r.state == s.(error := Some(ConsultError(reply.message)), response := Processing,
                       isLiveActive := false)
      && r.effects == [Consult(query)]
  {
    match reply
    case Answered(text) =>
      var done := s.(error := None, response := Plain(text),
                     history := s.history + [Turn(User, query), Turn(Ai, text)], inputText := "");
      Transition(done, if speakAfter then [Consult(query), Schedule(AutoSpeak)] else [Consult(query)])
    case Failed(message) =>
      Transition(s.(error := Some(ConsultError(message)), response := Processing, isLiveActive := false),
                 [Consult(query)])
  }

  /** `processAudioQuery`: a blank transcript is ignored without an error;
      otherwise the exchange runs and, on a reply, speaking it is scheduled. */
  function ProcessAudioQuery(s: AdvisorState, query: string, reply: Reply): (r: Transition)
    ensures Blank(query) ==> r == Transition(s, [])
    ensures !Blank(query) && reply.Answered? ==>
      r.effects == [Consult(query), Schedule(AutoSpeak)]
    ensures !Blank(query) && reply.Failed? ==> r.effects == [Consult(query)]
    ensures !Blank(query) ==> r == Exchange(s, query, reply, true)
  {
    TrimEmptyIffBlank(query);
    if Trim(query) == [] then Transition(s, [])
    else Exchange(s, query, reply, true)
  }

  /** `sendConsultationQuery`: a blank input is refused with an error and no
      call; otherwise the typed text is the query. */
  function SendConsultationQuery(s: AdvisorState, reply: Reply): (r: Transition)
    ensures Blank(s.inputText) ==> r == Transition(s.(error := Some(EmptyQuery)), [])
    ensures !Blank(s.inputText) ==> r == Exchange(s, s.inputText, reply, false)
    ensures !Blank(s.inputText) ==> r.effects == [Consult(s.inputText)]
  {
    TrimEmptyIffBlank(s.inputText);
    if Trim(s.inputText) == [] then Transition(s.(error := Some(EmptyQuery)), [])
    else Exchange(s, s.inputText, reply, false)
  }

  /** `startVoiceInput`: starts recognition only with a recogniser, while not
      already listening, in audio mode. */
  function StartVoiceInput(s: AdvisorState): (r: Transition)
    ensures r.effects != [] <==> s.hasRecognition && !s.isListening && s.mode == Some(Audio)
    ensures r.effects != [] ==> r == Transition(s.(isListening := true), [StartRecognition])
    ensures r.effects == [] ==> r.state == s
  {
    if s.hasRecognition && !s.isListening && s.mode == Some(Audio) then
      Transition(s.(isListening := true), [StartRecognition])
    else
      Transition(s, [])
  }

  /** The Stop button of the audio panel: asks the recogniser to stop; the
      state changes later, when recognition reports its end. */
  function StopVoiceInput(s: AdvisorState): (r: Transition)
    ensures r.state == s
    ensures r.effects != [] <==> s.hasRecognition && s.isListening
    ensures r.effects != [] ==> r.effects == [StopRecognition]
  {
    if s.hasRecognition && s.isListening then Transition(s, [StopRecognition]) else Transition(s, [])
  }

  /** Recognition's `onresult`: the transcript becomes the input text and
      listening ends; in audio mode the transcript is then consulted on. A
      consultation happens exactly when the session is in audio mode and the
      transcript is not blank; then an answered question and its answer join
      the history and the input is cleared, while a failed one leaves the
      history alone. */
  function RecognitionResult(s: AdvisorState, transcript: string, reply: Reply): (r: Transition)
    ensures r.effects != [] <==> s.mode == Some(Audio) && !Blank(transcript)
    ensures r.effects != [] ==> r.effects[0] == Consult(transcript)
    ensures r.state.mode == s.mode
    ensures r.effects == [] ==>
      r.state == s.(inputText := transcript, isListening := false)
    ensures r.effects != [] && reply.Answered? ==>
      && r.state.history == s.history + [Turn(User, transcript), Turn(Ai, reply.text)]
      && r.state.response == Plain(reply.text)
      && r.state.error == None
      && r.state.inputText == ""
      && !r.state.isListening
      && r.effects == [Consult(transcript), Schedule(AutoSpeak)]
    ensures r.effects != [] && reply.Failed? ==>
      && r.state.history == s.history
      && r.state.response == Processing
      && r.state.error == Some(ConsultError(reply.message))
      && r.state.inputText == transcript
      && !r.state.isListening
      && !r.state.isLiveActive
  {
    var heard := s.(inputText := transcript, isListening := false);
    if s.mode == Some(Audio) then ProcessAudioQuery(heard, transcript, reply) else Transition(heard, [])
  }

  /** A consulted transcript that gets a reply keeps the session live; one
      whose consultation fails requests nothing but that consultation, since
      the speaking timer is set only after the reply arrives. */
  lemma RecognitionOutcome(s: AdvisorState, transcript: string, reply: Reply)
    ensures var r := RecognitionResult(s, transcript, reply);
      && (r.effects != [] && reply.Answered? ==> r.state.isLiveActive == s.isLiveActive)
      && (r.effects != [] && reply.Failed? ==> r.effects == [Consult(transcript)])
  {
  }

  /** A recognised transcript touches only the input, the listening flag,
      and what a consultation changes: the response, the error, the history
      and the session's activity. The contact details, the form, the mode
      and the speech flags and handles stay as they were. */
  lemma RecognitionKeepsRest(s: AdvisorState, transcript: string, reply: Reply)
    ensures var n := RecognitionResult(s, transcript, reply).state;
      n.(inputText := s.inputText, isListening := s.isListening, response := s.response,
         error := s.error, history := s.history, isLiveActive := s.isLiveActive) == s
  {
    var heard := s.(inputText := transcript, isListening := false);
    if s.mode == Some(Audio) && !Blank(transcript) {
      assert RecognitionResult(s, transcript, reply) == Exchange(heard, transcript, reply, true);
    }
  }

  /** `speakResponse`: needs a synthesiser, something to say and no speech in
      progress; then it cancels whatever is queued and speaks the response. */
  function SpeakResponse(s: AdvisorState): (r: Transition)
    ensures r.state == s
    ensures r.effects != [] <==> s.hasSynth && !s.response.IsEmpty() && !s.isSpeaking
    ensures r.effects != [] ==> r.effects == [CancelSpeech, Speak(s.response)]
  {
    if !s.hasSynth || s.response.IsEmpty() || s.isSpeaking then Transition(s, [])
    else Transition(s, [CancelSpeech, Speak(s.response)])
  }

  /** The AutoSpeak timer: speaks when there is a synthesiser and nothing is
      being spoken. */
  function AutoSpeakFired(s: AdvisorState): (r: Transition)
    ensures r.state == s
    ensures r.effects != [] <==> s.hasSynth && !s.isSpeaking && !s.response.IsEmpty()
    ensures r.effects != [] ==> r.effects == [CancelSpeech, Speak(s.response)]
  {
    if s.hasSynth && !s.isSpeaking then SpeakResponse(s) else Transition(s, [])
  }

  /** The utterance's `onend`: speaking stops and, in audio mode, the next
      prompt is scheduled. */
  function UtteranceEnded(s: AdvisorState): (r: Transition)
    ensures r.state == s.(isSpeaking := false)
    ensures r.effects == (if s.mode == Some(Audio) then [Schedule(NextPrompt)] else [])
  {
    Transition(s.(isSpeaking := false), if s.mode == Some(Audio) then [Schedule(NextPrompt)] else [])
  }

  /** `stopSpeaking`: with a synthesiser, cancels speech and clears the
      speaking flag. */
  function StopSpeaking(s: AdvisorState): (r: Transition)
    ensures s.hasSynth ==> r == Transition(s.(isSpeaking := false), [CancelSpeech])
    ensures !s.hasSynth ==> r == Transition(s, [])
  {
    if s.hasSynth then Transition(s.(isSpeaking := false), [CancelSpeech]) else Transition(s, [])
  }

  /** `endSessionWithSummary`: shows the numbered transcript (the visitor
      labelled "You") and asks for contact details. The session stays open
      and nothing else changes. */
  function EndSessionWithSummary(s: AdvisorState): (r: AdvisorState)
    ensures r.showEmailForm
    ensures r.response == Summary(s.history)
    ensures r.(response := s.response, showEmailForm := s.showEmailForm) == s
  {
    s.(response := Summary(s.history), showEmailForm := true)
  }

  /** The message of the lead request: the contact details, then the numbered
      transcript with the visitor labelled "User". */
  function LeadMessage(email: string, phone: string, h: seq<Turn>): (r: string)
    ensures |r| == |LeadIntro| + |email| + |LeadPhoneLabel| + |phone| + |LeadSummaryLabel|
                   + |Render(h, LeadUserLabel)| + |LeadOutro|
    ensures r[..|LeadIntro| + |email|] == LeadIntro + email
    ensures r[|LeadIntro| + |email|..|LeadIntro| + |email| + |LeadPhoneLabel| + |phone|] == LeadPhoneLabel + phone
    ensures r[|r| - |LeadOutro| - |Render(h, LeadUserLabel)| - |LeadSummaryLabel|..|r| - |LeadOutro|]
            == LeadSummaryLabel + Render(h, LeadUserLabel)
    ensures r[|r| - |LeadOutro|..] == LeadOutro
  {
    LeadIntro + email + LeadPhoneLabel + phone + LeadSummaryLabel + Render(h, LeadUserLabel) + LeadOutro
  }

  /** The lead of the current state. */
  function LeadOf(s: AdvisorState): Lead {
    Lead(s.email, s.phone, s.history)
  }

  /** The request body the widget builds for a lead. */
  function LeadRequestOf(lead: Lead): LeadRequest {
    LeadRequest(lead.email, lead.phone, LeadSubject, LeadMessage(lead.email, lead.phone, lead.history))
  }

  /** `handleEmailSubmit`. With neither an email nor a phone it shows an error
      and sends nothing. Otherwise it posts the lead once; a 2xx answer hides
      the form, clears the contact fields, thanks the visitor and schedules
      the automatic close; any other answer or a network error shows an error
      and keeps the form and its contents. */
  function HandleEmailSubmit(s: AdvisorState, outcome: LeadOutcome): (r: Transition)
    ensures s.email == "" && s.phone == "" ==>
      r == Transition(s.(error := Some(ContactMissing)), [])
    ensures s.email != "" || s.phone != "" ==> |r.effects| > 0 && r.effects[0] == PostLead(LeadOf(s))
    ensures (s.email != "" || s.phone != "") && LeadOk(outcome) ==>
      && r.state == s.(showEmailForm := false, email := "", phone := "", response := ThankYou)
      && r.effects == [PostLead(LeadOf(s)), Schedule(AutoClose)]
    ensures (s.email != "" || s.phone != "") && !LeadOk(outcome) ==>
      && r.state == s.(error := Some(if outcome.NetworkError? then NetworkFailed else SubmitFailed))
      && r.effects == [PostLead(LeadOf(s))]
  {
    if s.email == "" && s.phone == "" then
      Transition(s.(error := Some(ContactMissing)), [])
    else
      var post := PostLead(LeadOf(s));
      match outcome
      case Responded(status) =>
        if 200 <= status <= 299 then
          Transition(s.(showEmailForm := false, email := "", phone := "", response := ThankYou),
                     [post, Schedule(AutoClose)])
        else
          Transition(s.(error := Some(SubmitFailed)), [post])
      case NetworkError =>
        Transition(s.(error := Some(NetworkFailed)), [post])
  }

  /** Submitting a lead, whatever the answer, leaves the conversation, the
      mode and the session's activity alone. */
  lemma SubmitKeepsConversation(s: AdvisorState, outcome: LeadOutcome)
    ensures HandleEmailSubmit(s, outcome).state.history == s.history
    ensures HandleEmailSubmit(s, outcome).state.mode == s.mode
    ensures HandleEmailSubmit(s, outcome).state.isLiveActive == s.isLiveActive
  {
  }

  // ---------------------------------------------------------------------------
  // Events
  // ---------------------------------------------------------------------------

  /** Everything that can happen to the widget: button presses and typing,
      recogniser and synthesiser callbacks, and timers firing. Remote
      outcomes ride on the event that triggers the call. */
  datatype Event =
    | Initialize(hasKey: bool, caps: Capabilities)
    | Close
    | ChooseMode(mode: Mode)
    | EditInput(text: string)
    | Send(reply: Reply)
    | MicPressed
    | MicStopPressed
    | Heard(transcript: string, reply: Reply)
    | RecognitionEnded
    | RecognitionError
    | TimerFired(timer: Timer)
    | UtteranceStarted
    | UtteranceFinished
    | UtteranceFailed
    | StopSpeakingPressed
    | SummaryRequested
    | EditEmail(email: string)
    | EditPhone(phone: string)
    | SubmitLead(outcome: LeadOutcome)

  /** The events that end the session: the Close button and the automatic
      close after an accepted lead. */
  predicate Resets(e: Event) {
    e.Close? || e == TimerFired(AutoClose)
  }

  /** The widget's reaction to one event. */
  function Step(s: AdvisorState, e: Event): Transition {
    match e
    case Initialize(hasKey, caps) => StartLiveSession(s, hasKey, caps)
    case Close => Transition(StopSession(s), [])
    case ChooseMode(m) => Transition(SelectInteractionMode(s, m), [])
    case EditInput(text) => Transition(s.(inputText := text), [])
    case Send(reply) => SendConsultationQuery(s, reply)
    case MicPressed => StartVoiceInput(s)
    case MicStopPressed => StopVoiceInput(s)
    case Heard(transcript, reply) => RecognitionResult(s, transcript, reply)
    case RecognitionEnded => Transition(s.(isListening := false), [])
    case RecognitionError =>
      Transition(s.(isListening := false, error := Some(RecognitionFailed)), [])
    case TimerFired(t) => (
      match t
      case AutoSpeak => AutoSpeakFired(s)
      case NextPrompt => Transition(s.(response := NextQuestion), [])
      case AutoClose => Transition(StopSession(s), []))
    case UtteranceStarted => Transition(s.(isSpeaking := true), [])
    case UtteranceFinished => UtteranceEnded(s)
    case UtteranceFailed => Transition(s.(isSpeaking := false, error := Some(AudioFailed)), [])
    case StopSpeakingPressed => StopSpeaking(s)
    case SummaryRequested => Transition(EndSessionWithSummary(s), [])
    case EditEmail(email) => Transition(s.(email := email), [])
    case EditPhone(phone) => Transition(s.(phone := phone), [])
    case SubmitLead(outcome) => HandleEmailSubmit(s, outcome)
  }

  /** The events the rendered widget makes possible in state `s`. Buttons and
      inputs exist only where the markup renders them (App.tsx:472-595):
      the mode buttons only while no mode is chosen, the chat input only in
      chat mode, the microphone only in audio mode, the summary button only
      while a response is shown. Callbacks and timers can always arrive. The
      contact form is offered while `showEmailForm` is set; the stop-speaking
      control is never rendered. */
  predicate Offered(s: AdvisorState, e: Event) {
    match e
    case Initialize(_, _) => !s.isLiveActive
    case Close => s.isLiveActive
    case ChooseMode(_) => s.isLiveActive && s.mode == None
    case EditInput(_) => s.isLiveActive && s.mode == Some(Chat)
    case Send(_) => s.isLiveActive && s.mode == Some(Chat)
    case MicPressed => s.isLiveActive && s.mode == Some(Audio) && !s.isListening
    case MicStopPressed => s.isLiveActive && s.mode == Some(Audio) && s.isListening
    case SummaryRequested => s.isLiveActive && !s.response.IsEmpty()
    case EditEmail(_) => s.showEmailForm
    case EditPhone(_) => s.showEmailForm
    case SubmitLead(_) => s.showEmailForm
    case StopSpeakingPressed => false
    case _ => true
  }

  /** The state after a sequence of events. */
  function Run(s: AdvisorState, events: seq<Event>): AdvisorState
    decreases |events|
  {
    if events == [] then s else Run(Step(s, events[0]).state, events[1..])
  }

  /** Every event of the sequence is offered in the state it arrives in. */
  predicate AllOffered(s: AdvisorState, events: seq<Event>)
    decreases |events|
  {
    events == [] || (Offered(s, events[0]) && AllOffered(Step(s, events[0]).state, events[1..]))
  }

  /** What the markup renders: the Initialize button only while no session
      is live; Close, the mode buttons and the summary button only in a live
      session, the mode buttons only while no mode is chosen and the summary
      button only while a response is shown; the chat input only in chat
      mode and the microphone only in audio mode, its Speak button enabled
      only while not listening and its Stop button only while listening; the
      contact form only while it is shown; never a stop-speaking control. */
  lemma OfferedControls(s: AdvisorState, e: Event)
    ensures Offered(s, e) && e.Initialize? ==> !s.isLiveActive
    ensures Offered(s, e) && (e.Close? || e.ChooseMode? || e.SummaryRequested?) ==> s.isLiveActive
    ensures Offered(s, e) && e.ChooseMode? ==> s.mode == None
    ensures Offered(s, e) && e.SummaryRequested? ==> !s.response.IsEmpty()
    ensures Offered(s, e) && e.MicPressed? ==> !s.isListening
    ensures Offered(s, e) && e.MicStopPressed? ==> s.isListening
    ensures Offered(s, e) && (e.EditInput? || e.Send?) ==> s.isLiveActive && s.mode == Some(Chat)
    ensures Offered(s, e) && (e.MicPressed? || e.MicStopPressed?) ==> s.isLiveActive && s.mode == Some(Audio)
    ensures Offered(s, e) && (e.EditEmail? || e.EditPhone? || e.SubmitLead?) ==> s.showEmailForm
    ensures !Offered(s, StopSpeakingPressed)
  {
  }

  // ---------------------------------------------------------------------------
  // Properties
  // ---------------------------------------------------------------------------

  /** The history alternates question and answer, starting with a question;
      in particular its length is even. */
  ghost predicate Alternates(h: seq<Turn>) {
    && |h| % 2 == 0
    && forall i :: 0 <= i < |h| ==> h[i].speaker == (if i % 2 == 0 then User else Ai)
  }

  /** `next` is `prev` followed by one question and one answer. */
  ghost predicate AppendsExchange(prev: seq<Turn>, next: seq<Turn>) {
    && |next| == |prev| + 2
    && next[..|prev|] == prev
    && next[|prev|].speaker == User
    && next[|prev| + 1].speaker == Ai
  }

  lemma ExchangeHistory(s: AdvisorState, query: string, reply: Reply, speakAfter: bool)
    ensures var h := Exchange(s, query, reply, speakAfter).state.history;
      h == s.history || AppendsExchange(s.history, h)
  {
  }

  /** A Send keeps the mode and keeps the history or appends one
      exchange. */
  lemma SendHistory(s: AdvisorState, reply: Reply)
    ensures var t := Step(s, Send(reply));
      && t.state.mode == s.mode
      && (t.state.history == s.history || AppendsExchange(s.history, t.state.history))
  {
    if !Blank(s.inputText) {
      ExchangeHistory(s, s.inputText, reply, false);
    }
  }

  /** A Send posts nothing and consults only on non-blank input. */
  lemma SendRequests(s: AdvisorState, reply: Reply)
    ensures Consults(Step(s, Send(reply)).effects) ==> !Blank(s.inputText)
    ensures !Posts(Step(s, Send(reply)).effects)
  {
  }

  /** A recognised transcript keeps the mode and keeps the history or
      appends one exchange. */
  lemma HeardHistory(s: AdvisorState, t: string, reply: Reply)
    ensures var r := Step(s, Heard(t, reply));
      && r.state.mode == s.mode
      && (r.state.history == s.history || AppendsExchange(s.history, r.state.history))
  {
    if s.mode == Some(Audio) && !Blank(t) {
      ExchangeHistory(s.(inputText := t, isListening := false), t, reply, true);
    }
  }

  /** A recognised transcript posts nothing and consults only in audio mode
      on a non-blank transcript. */
  lemma HeardRequests(s: AdvisorState, t: string, reply: Reply)
    ensures Consults(Step(s, Heard(t, reply)).effects) ==> s.mode == Some(Audio) && !Blank(t)
    ensures !Posts(Step(s, Heard(t, reply)).effects)
  {
  }

  /** A lead submission consults nothing and posts only with some contact
      detail. */
  lemma SubmitFacts(s: AdvisorState, outcome: LeadOutcome)
    ensures !Consults(Step(s, SubmitLead(outcome)).effects)
    ensures Posts(Step(s, SubmitLead(outcome)).effects) ==> s.email != "" || s.phone != ""
  {
  }

  /** The events that neither consult nor submit: a reset empties the
      history, every other one keeps it. */
  lemma LocalEventHistory(s: AdvisorState, e: Event)
    requires !e.Send? && !e.Heard? && !e.SubmitLead?
    ensures Resets(e) ==> Step(s, e).state.history == []
    ensures !Resets(e) ==> Step(s, e).state.history == s.history
  {
  }

  /** The same events change the mode only by a reset (back to none) or by a
      mode choice. */
  lemma LocalEventMode(s: AdvisorState, e: Event)
    requires !e.Send? && !e.Heard? && !e.SubmitLead?
    ensures Resets(e) ==> Step(s, e).state.mode == None
    ensures e.ChooseMode? ==> Step(s, e).state.mode == Some(e.mode)
    ensures !Resets(e) && !e.ChooseMode? ==> Step(s, e).state.mode == s.mode
  {
  }

  /** The same events make no network request. */
  lemma LocalEventQuiet(s: AdvisorState, e: Event)
    requires !e.Send? && !e.Heard? && !e.SubmitLead?
    ensures !Consults(Step(s, e).effects) && !Posts(Step(s, e).effects)
  {
  }

  /** What one event does to the history: a reset empties it; every other
      event keeps it or appends exactly one question-answer pair. */
  lemma StepHistory(s: AdvisorState, e: Event)
    ensures Resets(e) ==> Step(s, e).state.history == []
    ensures !Resets(e) ==>
      var h := Step(s, e).state.history;
      h == s.history || AppendsExchange(s.history, h)
  {
    if e.Send? {
      SendHistory(s, e.reply);
    } else if e.Heard? {
      HeardHistory(s, e.transcript, e.reply);
    } else if e.SubmitLead? {
      SubmitKeepsConversation(s, e.outcome);
    } else {
      LocalEventHistory(s, e);
    }
  }

  lemma AppendKeepsAlternation(prev: seq<Turn>, next: seq<Turn>)
    requires Alternates(prev) && AppendsExchange(prev, next)
    ensures Alternates(next)
  {
  }

  /** Every event keeps the history alternating. */
  lemma StepKeepsAlternation(s: AdvisorState, e: Event)
    requires Alternates(s.history)
    ensures Alternates(Step(s, e).state.history)
  {
    StepHistory(s, e);
    var h := Step(s, e).state.history;
    if !Resets(e) && h != s.history {
      AppendKeepsAlternation(s.history, h);
    }
  }

  /** Whatever happens, the history keeps alternating, so its length stays
      even. */
  lemma {:induction false} RunKeepsAlternation(s: AdvisorState, events: seq<Event>)
    requires Alternates(s.history)
    ensures Alternates(Run(s, events).history)
    ensures |Run(s, events).history| % 2 == 0
    decreases |events|
  {
    if events != [] {
      StepKeepsAlternation(s, events[0]);
      RunKeepsAlternation(Step(s, events[0]).state, events[1..]);
    }
  }

  /** Across any run without a reset the old history is a prefix of the new
      one. */
  lemma {:induction false} RunAppendsOnly(s: AdvisorState, events: seq<Event>)
    requires forall i :: 0 <= i < |events| ==> !Resets(events[i])
    ensures |s.history| <= |Run(s, events).history|
    ensures Run(s, events).history[..|s.history|] == s.history
    decreases |events|
  {
    if events != [] {
      var next := Step(s, events[0]).state;
      StepHistory(s, events[0]);
      assert next.history[..|s.history|] == s.history;
      RunAppendsOnly(next, events[1..]);
      var h := Run(next, events[1..]).history;
      assert h[..|s.history|] == h[..|next.history|][..|s.history|];
    }
  }

  /** Among offered events, a chosen mode changes only through a reset (which
      returns it to none), and an unset mode only through a mode choice. */
  lemma StepModeLocked(s: AdvisorState, e: Event)
    requires Offered(s, e)
    ensures s.mode.Some? && Step(s, e).state.mode != s.mode ==> Resets(e) && Step(s, e).state.mode == None
    ensures s.mode.None? && Step(s, e).state.mode != s.mode ==> e.ChooseMode?
  {
    if e.Send? {
      SendHistory(s, e.reply);
    } else if e.Heard? {
      HeardHistory(s, e.transcript, e.reply);
    } else if e.SubmitLead? {
      SubmitKeepsConversation(s, e.outcome);
    } else {
      LocalEventMode(s, e);
    }
  }

  /** Once a mode is chosen, no run of offered events without a reset changes
      it. */
  lemma {:induction false} RunModeLocked(s: AdvisorState, events: seq<Event>)
    requires s.mode.Some?
    requires AllOffered(s, events)
    requires forall i :: 0 <= i < |events| ==> !Resets(events[i])
    ensures Run(s, events).mode == s.mode
    decreases |events|
  {
    if events != [] {
      StepModeLocked(s, events[0]);
      RunModeLocked(Step(s, events[0]).state, events[1..]);
    }
  }

  /** Closing an already closed session changes nothing, so the Close
      button and the automatic close racing each other agree. */
  lemma StopSessionIdempotent(s: AdvisorState)
    ensures StopSession(StopSession(s)) == StopSession(s)
  {
  }

  /** Neither a consultation nor a lead request is made without a visible
      reason: a consultation only on Send with non-blank input or on a
      non-blank transcript in audio mode, a lead POST only on a submit with
      some contact detail. */
  lemma NetworkCallsGuarded(s: AdvisorState, e: Event)
    ensures Consults(Step(s, e).effects) ==>
      || (e.Send? && !Blank(s.inputText))
      || (e.Heard? && s.mode == Some(Audio) && !Blank(e.transcript))
    ensures Posts(Step(s, e).effects) ==> e.SubmitLead? && (s.email != "" || s.phone != "")
  {
    if e.Send? {
      SendRequests(s, e.reply);
    } else if e.Heard? {
      HeardRequests(s, e.transcript, e.reply);
    } else if e.SubmitLead? {
      SubmitFacts(s, e.outcome);
    } else {
      LocalEventQuiet(s, e);
    }
  }

  /** A failed consultation leaves the conversation and the mode where they
      were, so restarting the session with a key resumes it. */
  lemma FailureThenRestart(s: AdvisorState, query: string, message: string, caps: Capabilities)
    requires s.mode == Some(Chat) && s.inputText == query && !Blank(query)
    ensures var failed := Step(s, Send(Failed(message))).state;
      && !failed.isLiveActive
      && failed.error == Some(ConsultError(message))
      && failed.history == s.history && failed.mode == s.mode
      && var resumed := Step(failed, Initialize(true, caps)).state;
         resumed.isLiveActive && resumed.history == s.history && resumed.mode == Some(Chat)
  {
  }
}

=== FILE: lead_api.dfy ===
/** The lead-capture endpoint `api/send-email.js`: a request handler reduced
    to a pure function from the HTTP method and the parsed JSON body to the
    response status and JSON body. Logging is left out. */
module LeadApi {
  import opened Wrappers

  /** A parsed JSON value. Numbers are modelled as integers. */
  datatype Json =
    | JNull
    | JBool(b: bool)
    | JNum(n: int)
    | JStr(s: string)
    | JArr(items: seq<Json>)
    | JObj(fields: map<string, Json>)

  datatype Response = Response(status: nat, body: Json)

  const MethodNotAllowed: string := "Method not allowed"
  const MissingFields: string := "Missing required fields"
  const InternalError: string := "Internal server error"
  const LeadCaptured: string := "Lead captured successfully"

  function ErrorBody(message: string): Json {
    JObj(map["error" := JStr(message)])
  }

  /** JavaScript falsiness of a JSON value: null, false, 0 and the empty
      string. */
  predicate Falsy(v: Json) {
    v == JNull || v == JBool(false) || v == JNum(0) || v == JStr("")
  }

  /** `body.key` for a body that is neither undefined nor null: present only
      when the body is an object holding that key; `None` is `undefined`. */
  function Prop(body: Json, key: string): (r: Option<Json>)
    ensures r.Some? <==> body.JObj? && key in body.fields
  {
    if body.JObj? && key in body.fields then Some(body.fields[key]) else None
  }

  /** `!value` is false: the property exists and is truthy. */
  predicate Truthy(v: Option<Json>) {
    v.Some? && !Falsy(v.value)
  }

  /** Destructuring `req.body` throws when the body is undefined or null. */
  predicate DestructuringThrows(body: Option<Json>) {
    body.None? || body.value == JNull
  }

  /** The handler: method check first, then the destructuring of the body
      (whose exception is turned into a 500), then the required-field check,
      then the success response echoing the three required fields. Every
      non-POST method gets 405 whatever the body; an undefined or null body
      gets 500; a missing or falsy required field gets 400; the error
      responses carry exactly their error message. */
  function Handle(verb: string, body: Option<Json>): (r: Response)
    ensures verb != "POST" ==> r == Response(405, ErrorBody(MethodNotAllowed))
    ensures verb == "POST" && DestructuringThrows(body)
            ==> r == Response(500, ErrorBody(InternalError))
    ensures verb == "POST" && !DestructuringThrows(body) && !HasRequiredFields(body)
            ==> r == Response(400, ErrorBody(MissingFields))
    ensures r.status == 200 <==> verb == "POST" && HasRequiredFields(body)
  {
    if verb != "POST" then
      Response(405, ErrorBody(MethodNotAllowed))
    else if DestructuringThrows(body) then
      Response(500, ErrorBody(InternalError))
    else
      var email := Prop(body.value, "email");
      var subject := Prop(body.value, "subject");
      var message := Prop(body.value, "message");
      if !Truthy(email) || !Truthy(subject) || !Truthy(message) then
        Response(400, ErrorBody(MissingFields))
      else
        Response(200, JObj(map[
          "success" := JBool(true),
          "message" := JStr(LeadCaptured),
          "lead" := JObj(map[
            "email" := email.value,
            "subject" := subject.value,
            "message" := message.value])]))
  }

  /** The body a request must carry to be accepted: an object whose email,
      subject and message are all present and truthy. */
  predicate HasRequiredFields(body: Option<Json>) {
    && body.Some? && body.value.JObj?
    && Truthy(Prop(body.value, "email"))
    && Truthy(Prop(body.value, "subject"))
    && Truthy(Prop(body.value, "message"))
  }

  /** On success the response says so and echoes email, subject and message
      unchanged under `lead`. */
  lemma HandleEchoesLead(verb: string, body: Option<Json>)
    requires Handle(verb, body).status == 200
    ensures body.Some? && body.value.JObj?
    ensures var f := body.value.fields;
      && "email" in f && "subject" in f && "message" in f
      && Handle(verb, body).body == JObj(map[
           "success" := JBool(true),
           "message" := JStr(LeadCaptured),
           "lead" := JObj(map["email" := f["email"], "subject" := f["subject"], "message" := f["message"]])])
  {
  }

  /** `phone` is never read: setting, changing or removing it leaves the
      response unchanged. */
  lemma PhoneIgnored(verb: string, fields: map<string, Json>, phone: Option<Json>)
    ensures var other := if phone.Some? then fields["phone" := phone.value] else fields - {"phone"};
      Handle(verb, Some(JObj(other))) == Handle(verb, Some(JObj(fields)))
  {
  }
}

=== FILE: lead_flow.dfy ===
/** The lead submission end to end: the widget's `handleEmailSubmit`
    (App.tsx:375-412) posting to the handler of `api/send-email.js`, with the
    request body carried unchanged from client to server. The two sides
    validate differently: the widget wants an email OR a phone, the server
    wants an email. */
module LeadFlow {
  import opened Wrappers
  import opened Transcript
  import opened Advisor
  import opened LeadApi

  /** The JSON object the widget sends, as the server receives it. */
  function RequestJson(req: LeadRequest): Json {
    JObj(map[
      "email" := JStr(req.email),
      "phone" := JStr(req.phone),
      "subject" := JStr(req.subject),
      "message" := JStr(req.message)])
  }

  /** What the widget's `fetch` sees when the server handles its request. */
  function ServerAnswer(lead: Lead): LeadOutcome {
    Responded(Handle("POST", Some(RequestJson(LeadRequestOf(lead)))).status)
  }

  /** The submission with the real server behind it. */
  function SubmitToServer(s: AdvisorState): Transition {
    HandleEmailSubmit(s, ServerAnswer(LeadOf(s)))
  }

  /** The server's required-field check on a request the widget built: a
      string field is truthy exactly when it is non-empty. */
  lemma RequestFieldsRequired(req: LeadRequest)
    ensures HasRequiredFields(Some(RequestJson(req)))
            <==> req.email != "" && req.subject != "" && req.message != ""
  {
  }

  lemma LeadMessageNonEmpty(email: string, phone: string, h: seq<Turn>)
    ensures LeadMessage(email, phone, h) != ""
  {
  }

  /** The widget's own lead request always has a non-empty subject and
      message, so the server decides on the email alone: it accepts the
      request exactly when the email is non-empty, and answers 400
      otherwise. */
  lemma ServerAcceptsIffEmail(lead: Lead)
    ensures Handle("POST", Some(RequestJson(LeadRequestOf(lead)))).status == 200 <==> lead.email != ""
    ensures lead.email == "" ==> Handle("POST", Some(RequestJson(LeadRequestOf(lead)))).status == 400
  {
  }

  /** The two validators disagree on a phone-only lead: the widget lets it
      through and posts it with an empty email and the phone, the server
      rejects it with 400, and the widget ends up showing the submission
      error with the form and the contact fields still in place. */
  lemma PhoneOnlyLeadRejected(s: AdvisorState)
    requires s.email == "" && s.phone != ""
    ensures var t := SubmitToServer(s);
      && t.effects == [PostLead(LeadOf(s))]
      && LeadRequestOf(LeadOf(s)).email == "" && LeadRequestOf(LeadOf(s)).phone == s.phone
      && ServerAnswer(LeadOf(s)) == Responded(400)
      && t.state == s.(error := Some(SubmitFailed))
  {
  }

  /** With an email the lead goes through: the server echoes the email, the
      subject and the message, the widget hides the form, clears the contact
      fields and schedules the automatic close, and when that timer fires the
      session is closed and the conversation forgotten. */
  lemma LeadWithEmailAccepted(s: AdvisorState)
    requires s.email != ""
    ensures var req := LeadRequestOf(LeadOf(s));
      var lead := Handle("POST", Some(RequestJson(req))).body.fields["lead"];
      && lead == JObj(map["email" := JStr(s.email), "subject" := JStr(LeadSubject),
                          "message" := JStr(req.message)])
    ensures var t := SubmitToServer(s);
      && t.effects == [PostLead(LeadOf(s)), Schedule(AutoClose)]
      && !t.state.showEmailForm && t.state.email == "" && t.state.phone == ""
      && var closed := Step(t.state, TimerFired(AutoClose)).state;
         !closed.isLiveActive && closed.history == [] && closed.mode == None
  {
    ServerAcceptsIffEmail(LeadOf(s));
    HandleEchoesLead("POST", Some(RequestJson(LeadRequestOf(LeadOf(s)))));
  }

  /** The server never sees the phone as a reason to accept: whatever phone
      the widget sends, the answer is the one it gives to the same request
      without a phone. */
  lemma PhoneDoesNotMatterToServer(lead: Lead)
    ensures var fields := RequestJson(LeadRequestOf(lead)).fields;
      Handle("POST", Some(JObj(fields - {"phone"}))) == Handle("POST", Some(JObj(fields)))
  {
  }
}

=== FILE: scenarios.dfy ===
/** End-to-end runs of the advisor widget from its first render, with the
    remote outcomes fixed. */
module Scenarios {
  import opened Wrappers
  import opened Text
  import opened Transcript
  import opened Advisor
  import opened LeadFlow

  const Browser: Capabilities := Capabilities(true, true)

  /** A chat consultation: start with a key, choose chat, type a question,
      get a reply. The history holds the question then the reply, the reply
      is on screen and the input is cleared; every step was offered by the
      rendered widget. */
  lemma ChatConsultation(question: string, answer: string)
    requires question != [] && !IsJsSpace(question[0])
    ensures var events := [Initialize(true, Browser), ChooseMode(Chat), EditInput(question),
                           Send(Answered(answer))];
      && AllOffered(Initial, events)
      && var s := Run(Initial, events);
         && s.history == [Turn(User, question), Turn(Ai, answer)]
         && s.response == Plain(answer) && s.inputText == "" && s.error == None
         && s.isLiveActive && s.mode == Some(Chat)
  {
    var events := [Initialize(true, Browser), ChooseMode(Chat), EditInput(question),
                   Send(Answered(answer))];
    var s1 := Step(Initial, events[0]).state;
    assert s1.isLiveActive && s1.mode == None;
    var s2 := Step(s1, events[1]).state;
    assert s2.isLiveActive && s2.mode == Some(Chat);
    var s3 := Step(s2, events[2]).state;
    assert s3.isLiveActive && s3.mode == Some(Chat) && s3.inputText == question;
    assert !Blank(s3.inputText);
    var s4 := Step(s3, events[3]).state;
    assert s4.history == [Turn(User, question), Turn(Ai, answer)];
    assert events[1..][1..][1..][1..] == [];
    assert AllOffered(s3, events[1..][1..][1..]);
    assert AllOffered(s2, events[1..][1..]);
    assert AllOffered(s1, events[1..]);
    assert Run(s3, events[1..][1..][1..]) == s4;
    assert Run(s2, events[1..][1..]) == s4;
    assert Run(s1, events[1..]) == s4;
  }

  /** Without a key the first click leaves the widget inactive with the
      missing-key error. */
  lemma StartWithoutKey(caps: Capabilities)
    ensures var s := Step(Initial, Initialize(false, caps));
      && !s.state.isLiveActive
      && s.state.error == Some(MissingKey)
      && s.state.mode == None && s.state.history == []
      && s.effects == []
  {
  }

  /** An audio consultation: the recognised question is consulted on at
      once, and when the speech timer fires the reply is spoken exactly once,
      after cancelling anything queued. */
  lemma AudioConsultation(question: string, answer: string)
    requires question != [] && !IsJsSpace(question[0]) && answer != ""
    ensures var s3 := Run(Initial, [Initialize(true, Browser), ChooseMode(Audio), MicPressed]);
      && s3.isListening
      && var t := Step(s3, Heard(question, Answered(answer)));
         && t.effects == [Consult(question), Schedule(AutoSpeak)]
         && t.state.history == [Turn(User, question), Turn(Ai, answer)]
         && !t.state.isListening
         && Step(t.state, TimerFired(AutoSpeak)).effects == [CancelSpeech, Speak(Plain(answer))]
  {
    var events := [Initialize(true, Browser), ChooseMode(Audio), MicPressed];
    var s1 := Step(Initial, events[0]).state;
    assert s1.hasRecognition && s1.hasSynth && !s1.isListening && !s1.isSpeaking;
    var s2 := Step(s1, events[1]).state;
    assert s2.mode == Some(Audio) && s2.hasRecognition && s2.hasSynth && !s2.isListening;
    var s3 := Step(s2, events[2]).state;
    assert s3.isListening && s3.mode == Some(Audio) && s3.hasSynth && !s3.isSpeaking && s3.history == [];
    assert events[1..][1..][1..] == [];
    assert Run(s2, events[1..][1..]) == s3;
    assert Run(s1, events[1..]) == s3;
    assert !Blank(question);
    var heard := s3.(inputText := question, isListening := false);
    var t := Step(s3, Heard(question, Answered(answer)));
    assert t == Exchange(heard, question, Answered(answer), true);
    assert t.state.response == Plain(answer) && t.state.hasSynth && !t.state.isSpeaking;
  }

  /** The summary of a two-entry conversation lists both entries in order,
      numbered 1 and 2, and opens the contact form. */
  lemma TwoTurnSummary(s: AdvisorState, question: string, answer: string)
    requires s.history == [Turn(User, question), Turn(Ai, answer)]
    ensures var r := Step(s, SummaryRequested).state;
      && r.showEmailForm
      && r.response == Summary(s.history)
      && Render(r.response.history, SummaryUserLabel) == "1. You: " + question + "\n\n" + "2. AI: " + answer
  {
    RenderTwo(Turn(User, question), Turn(Ai, answer), SummaryUserLabel);
  }

  /** The lead message for a two-entry conversation: the contact details,
      then both entries, numbered 1 and 2, with the visitor labelled "User",
      then the closing line. */
  lemma TwoTurnLead(email: string, phone: string, question: string, answer: string)
    ensures LeadMessage(email, phone, [Turn(User, question), Turn(Ai, answer)])
         == LeadIntro + email + LeadPhoneLabel + phone + LeadSummaryLabel
            + ("1. User: " + question + "\n\n" + "2. AI: " + answer) + LeadOutro
  {
    var h := [Turn(User, question), Turn(Ai, answer)];
    RenderTwo(h[0], h[1], LeadUserLabel);
    assert Render(h, LeadUserLabel) == "1. User: " + question + "\n\n" + "2. AI: " + answer;
  }

  /** A phone-only lead passes the widget's check (no validation error) and
      is posted with the phone and an empty email. */
  lemma PhoneOnlyLeadPosted(s: AdvisorState, phone: string, outcome: LeadOutcome)
    requires s.email == "" && phone != ""
    ensures var t := Step(s.(phone := phone), SubmitLead(outcome));
      && t.effects[0] == PostLead(LeadOf(s.(phone := phone)))
      && LeadRequestOf(t.effects[0].lead).email == "" && LeadRequestOf(t.effects[0].lead).phone == phone
  {
  }
}

=== FILE: stale_closure.dfy ===
/** The recogniser's `onresult` callback as the widget is written
    (App.tsx:207-224). `startLiveSession` creates a new recogniser each time
    a session starts with an API key in a browser that offers recognition,
    and the callback it installs tests `interactionMode` as it was in the
    render that ran `startLiveSession`, not the mode chosen afterwards. This
    module keeps that captured mode next to the widget's state and shows
    that, from the first render and following only the controls the markup
    offers, the captured mode is never audio: a recognised transcript only
    fills the input and is never consulted on. `Advisor.Step` is the
    intended behaviour, which tests the current mode. */
module StaleClosure {
  import opened Wrappers
  import opened Text
  import opened Advisor

  /** The widget's state and the mode the installed `onresult` captured. */
  datatype Widget = Widget(state: AdvisorState, heardMode: Option<Mode>)

  datatype WidgetStep = WidgetStep(widget: Widget, effects: seq<Effect>)

  /** The first render: no recogniser has been created yet, and the mode a
      first one would capture is none. */
  const Start: Widget := Widget(Initial, None)

  /** `onresult` with the captured mode: the transcript fills the input and
      listening ends; the audio query runs only when the captured mode is
      audio and the transcript is not blank. */
  function HeardAsWritten(s: AdvisorState, captured: Option<Mode>, transcript: string, reply: Reply)
    : (r: Transition)
    ensures r.effects != [] <==> captured == Some(Audio) && !Blank(transcript)
    ensures captured != Some(Audio) ==>
      r == Transition(s.(inputText := transcript, isListening := false), [])
  {
    var heard := s.(inputText := transcript, isListening := false);
    if captured == Some(Audio) then ProcessAudioQuery(heard, transcript, reply) else Transition(heard, [])
  }

  /** One event as written: a session start that creates a recogniser
      captures the current mode; a recognised transcript uses the captured
      mode; everything else is `Advisor.Step`. */
  function StepAsWritten(w: Widget, e: Event): (r: WidgetStep)
    ensures !e.Heard? ==> r.widget.state == Step(w.state, e).state && r.effects == Step(w.state, e).effects
    ensures e.Initialize? && e.hasKey && e.caps.recognition ==> r.widget.heardMode == w.state.mode
    ensures !(e.Initialize? && e.hasKey && e.caps.recognition) ==> r.widget.heardMode == w.heardMode
    ensures e.Heard? && w.heardMode != Some(Audio) ==>
      r == WidgetStep(Widget(w.state.(inputText := e.transcript, isListening := false), w.heardMode), [])
  {
    match e
    case Heard(transcript, reply) =>
      var t := HeardAsWritten(w.state, w.heardMode, transcript, reply);
      WidgetStep(Widget(t.state, w.heardMode), t.effects)
    case Initialize(hasKey, caps) =>
      var t := Step(w.state, e);
      WidgetStep(Widget(t.state, if hasKey && caps.recognition then w.state.mode else w.heardMode), t.effects)
    case _ =>
      var t := Step(w.state, e);
      WidgetStep(Widget(t.state, w.heardMode), t.effects)
  }

  /** As written, a transcript is judged by the captured mode: it makes a
      request exactly when that mode is audio and the transcript is not
      blank, whatever the session's current mode. */
  lemma HeardJudgedByCapture(w: Widget, transcript: string, reply: Reply)
    ensures var r := StepAsWritten(w, Heard(transcript, reply));
      r.effects != [] <==> w.heardMode == Some(Audio) && !Blank(transcript)
  {
  }

  function RunAsWritten(w: Widget, events: seq<Event>): Widget
    decreases |events|
  {
    if events == [] then w else RunAsWritten(StepAsWritten(w, events[0]).widget, events[1..])
  }

  /** Every event of the sequence is offered by the markup in the state it
      arrives in. */
  predicate AllOfferedAsWritten(w: Widget, events: seq<Event>)
    decreases |events|
  {
    events == [] || (Offered(w.state, events[0]) && AllOfferedAsWritten(StepAsWritten(w, events[0]).widget, events[1..]))
  }

  /** The invariant behind the finding: the captured mode is not audio, and
      neither is the mode of a session that is not live (the only state in
      which a session can start, and so a mode be captured). */
  predicate NeverAudio(w: Widget) {
    && w.heardMode != Some(Audio)
    && (!w.state.isLiveActive ==> w.state.mode != Some(Audio))
  }

  /** The events other than a consultation, a transcript and a lead change
      the session's activity only by starting or ending it. */
  lemma LocalEventActivity(s: AdvisorState, e: Event)
    requires !e.Send? && !e.Heard? && !e.SubmitLead?
    ensures !Resets(e) && !e.Initialize? ==> Step(s, e).state.isLiveActive == s.isLiveActive
  {
  }

  /** Every offered event keeps the invariant. */
  lemma StepKeepsNeverAudio(w: Widget, e: Event)
    requires NeverAudio(w) && Offered(w.state, e)
    ensures NeverAudio(StepAsWritten(w, e).widget)
  {
    var s := w.state;
    if e.Send? {
      SendHistory(s, e.reply);
    } else if e.Heard? {
    } else if e.SubmitLead? {
      SubmitKeepsConversation(s, e.outcome);
    } else {
      LocalEventMode(s, e);
      LocalEventActivity(s, e);
    }
  }

  lemma {:induction false} RunKeepsNeverAudio(w: Widget, events: seq<Event>)
    requires NeverAudio(w) && AllOfferedAsWritten(w, events)
    ensures NeverAudio(RunAsWritten(w, events))
    decreases |events|
  {
    if events != [] {
      StepKeepsNeverAudio(w, events[0]);
      RunKeepsNeverAudio(StepAsWritten(w, events[0]).widget, events[1..]);
    }
  }

  /** The finding: after any sequence of offered events from the first
      render, a recognised transcript only fills the input and ends
      listening; nothing is consulted, whatever mode the session is in. */
  lemma {:induction false} HeardNeverConsults(events: seq<Event>, transcript: string, reply: Reply)
    requires AllOfferedAsWritten(Start, events)
    ensures var w := RunAsWritten(Start, events);
      && StepAsWritten(w, Heard(transcript, reply)).effects == []
      && StepAsWritten(w, Heard(transcript, reply)).widget.state
         == w.state.(inputText := transcript, isListening := false)
  {
    RunKeepsNeverAudio(Start, events);
  }

  /** The input that shows it: start a session in a browser with
      recognition, choose audio, press Speak, speak a question. As written nothing is
      consulted; the intended widget consults on it and schedules speaking
      the answer. */
  lemma SpokenQuestionIgnored(question: string, answer: string)
    requires !Blank(question)
    ensures var events := [Initialize(true, Capabilities(true, true)), ChooseMode(Audio), MicPressed];
      var w := RunAsWritten(Start, events);
      && AllOfferedAsWritten(Start, events)
      && StepAsWritten(w, Heard(question, Answered(answer))).effects == []
      && Step(w.state, Heard(question, Answered(answer))).effects
         == [Consult(question), Schedule(AutoSpeak)]
  {
    var w1 := StepAsWritten(Start, Initialize(true, Capabilities(true, true))).widget;
    var w2 := StepAsWritten(w1, ChooseMode(Audio)).widget;
    var w3 := StepAsWritten(w2, MicPressed).widget;
    assert w3.state.mode == Some(Audio) && w3.heardMode == None;
    assert RunAsWritten(Start, [Initialize(true, Capabilities(true, true)), ChooseMode(Audio), MicPressed]) == w3;
  }
}

=== FILE: text.dfy ===
/** String primitives the advisor widget relies on: JavaScript's
    `String.prototype.trim`, the decimal rendering of a list index inside a
    template literal, and `Array.prototype.join`. Strings are sequences of
    Unicode scalar values. */
module Text {

  // ---------------------------------------------------------------------------
  // Whitespace and trim
  // ---------------------------------------------------------------------------

  /** The characters ECMAScript's `trim` removes: WhiteSpace (tab, vertical
      tab, form feed, space, no-break space, byte-order mark and the Unicode
      space separators) and LineTerminator (line feed, carriage return, line
      and paragraph separators). */
  predicate IsJsSpace(c: char) {
    || c == '\t' || c == '\n' || c == '\U{000B}' || c == '\U{000C}' || c == '\r'
    || c == ' ' || c == '\U{00A0}' || c == '\U{1680}'
    || ('\U{2000}' <= c <= '\U{200A}')
    || c == '\U{2028}' || c == '\U{2029}' || c == '\U{202F}' || c == '\U{205F}'
    || c == '\U{3000}' || c == '\U{FEFF}'
  }

  /** A string made of whitespace only (the empty string included). */
  ghost predicate Blank(s: string) {
    forall i :: 0 <= i < |s| ==> IsJsSpace(s[i])
  }

  /** The first position at or after `k` that does not hold whitespace, or
      `|s|` when there is none. */
  function SkipSpaces(s: string, k: nat): (n: nat)
    requires k <= |s|
    ensures k <= n <= |s|
    ensures forall i :: k <= i < n ==> IsJsSpace(s[i])
    ensures n < |s| ==> !IsJsSpace(s[n])
    decreases |s| - k
  {
    if k < |s| && IsJsSpace(s[k]) then SkipSpaces(s, k + 1) else k
  }

  /** The position just after the last non-whitespace character before `k`,
      or 0 when there is none. */
  function SkipSpacesBack(s: string, k: nat): (n: nat)
    requires k <= |s|
    ensures n <= k
    ensures forall i :: n <= i < k ==> IsJsSpace(s[i])
    ensures n > 0 ==> !IsJsSpace(s[n - 1])
  {
    if k > 0 && IsJsSpace(s[k - 1]) then SkipSpacesBack(s, k - 1) else k
  }

  /** Drops leading whitespace. The result is a suffix of `s` after a run of
      whitespace, starts with a non-space when non-empty, and is empty exactly
      when `s` is blank. */
  function TrimStart(s: string): (r: string)
    ensures |r| <= |s| && r == s[|s| - |r|..]
    ensures forall i :: 0 <= i < |s| - |r| ==> IsJsSpace(s[i])
    ensures r == [] || !IsJsSpace(r[0])
    ensures r == [] <==> Blank(s)
  {
    s[SkipSpaces(s, 0)..]
  }

  /** Drops trailing whitespace. The result is a prefix of `s` before a run
      of whitespace, ends with a non-space when non-empty, and is empty
      exactly when `s` is blank. */
  function TrimEnd(s: string): (r: string)
    ensures |r| <= |s| && r == s[..|r|]
    ensures forall i :: |r| <= i < |s| ==> IsJsSpace(s[i])
    ensures r == [] || !IsJsSpace(r[|r| - 1])
    ensures r == [] <==> Blank(s)
  {
    s[..SkipSpacesBack(s, |s|)]
  }

  /** `s.trim()`: whitespace removed from both ends. */
  function Trim(s: string): string {
    TrimEnd(TrimStart(s))
  }

  /** `!s.trim()` holds exactly for the blank strings: trimming leaves nothing
      iff every character is whitespace. */
  lemma TrimEmptyIffBlank(s: string)
    ensures Trim(s) == [] <==> Blank(s)
  {
  }

  // ---------------------------------------------------------------------------
  // Decimal numerals (`${n}` for a non-negative integer)
  // ---------------------------------------------------------------------------

  predicate IsDigit(c: char) {
    '0' <= c <= '9'
  }

  predicate IsDigits(s: string) {
    forall i :: 0 <= i < |s| ==> IsDigit(s[i])
  }

  function DigitChar(d: nat): (c: char)
    requires d < 10
    ensures IsDigit(c)
  {
    (48 + d) as char
  }

  function DigitValue(c: char): (d: nat)
    requires IsDigit(c)
    ensures d < 10
  {
    (c as int) - 48
  }

  /** The decimal numeral of `n`, most significant digit first, with no
      leading zero. */
  function ShowNat(n: nat): (r: string)
    ensures |r| > 0 && IsDigits(r)
    ensures r[0] == '0' ==> n == 0
  {
    if n < 10 then [DigitChar(n)] else ShowNat(n / 10) + [DigitChar(n % 10)]
  }

  /** Reads a string of digits as a decimal number. */
  function ParseNat(s: string): nat
    requires IsDigits(s)
  {
    if |s| == 0 then 0 else 10 * ParseNat(s[..|s| - 1]) + DigitValue(s[|s| - 1])
  }

  /** Reading back a rendered numeral gives the number. */
  lemma {:induction false} ParseShowNat(n: nat)
    ensures ParseNat(ShowNat(n)) == n
  {
    if n >= 10 {
      var p := ShowNat(n / 10);
      assert (p + [DigitChar(n % 10)])[..|p|] == p;
      ParseShowNat(n / 10);
    }
  }

  /** Distinct numbers render as distinct numerals. */
  lemma ShowNatInjective(a: nat, b: nat)
    requires ShowNat(a) == ShowNat(b)
    ensures a == b
  {
    ParseShowNat(a);
    ParseShowNat(b);
  }

  /** The longest prefix of `s` made of digits. */
  function DigitPrefix(s: string): (r: string)
    ensures IsDigits(r)
  {
    if |s| > 0 && IsDigit(s[0]) then [s[0]] + DigitPrefix(s[1..]) else []
  }

  /** A digit string followed by something that does not start with a digit
      is recovered by `DigitPrefix`. */
  lemma {:induction false} DigitPrefixOfNumeral(d: string, rest: string)
    requires IsDigits(d)
    requires rest == [] || !IsDigit(rest[0])
    ensures DigitPrefix(d + rest) == d
  {
    if d != [] {
      assert (d + rest)[1..] == d[1..] + rest;
      DigitPrefixOfNumeral(d[1..], rest);
    }
  }

  // ---------------------------------------------------------------------------
  // Join
  // ---------------------------------------------------------------------------

  /** `xs.join(sep)`: the elements in order, separated by `sep`. */
  function Join(xs: seq<string>, sep: string): string
  {
    if |xs| == 0 then ""
    else if |xs| == 1 then xs[0]
    else xs[0] + sep + Join(xs[1..], sep)
  }

  /** Joining one more element appends a separator and that element. */
  lemma {:induction false} JoinSnoc(xs: seq<string>, y: string, sep: string)
    requires |xs| > 0
    ensures Join(xs + [y], sep) == Join(xs, sep) + sep + y
  {
    if |xs| == 1 {
      assert xs + [y] == [xs[0], y];
      assert [xs[0], y][1..] == [y];
    } else {
      assert (xs + [y])[1..] == xs[1..] + [y];
      JoinSnoc(xs[1..], y, sep);
    }
  }
}

=== FILE: transcript.dfy ===
/** The conversation history of the advisor widget and its rendering as a
    numbered transcript (App.tsx:367-369 for the on-screen summary and
    App.tsx:393 for the lead message). */
module Transcript {
  import opened Text

  datatype Speaker = User | Ai

  /** One entry of `conversationHistory`: `{type: 'user' | 'ai', text}`. */
  datatype Turn = Turn(speaker: Speaker, text: string)

  /** Entries are separated by a blank line. */
  const Separator: string := "\n\n"

  /** The on-screen summary calls the visitor "You"; the lead message calls
      them "User". The assistant is "AI" in both. */
  const SummaryUserLabel: string := "You"
  const LeadUserLabel: string := "User"
  const AiLabel: string := "AI"

  function Label(speaker: Speaker, userLabel: string): string {
    if speaker == User then userLabel else AiLabel
  }

  /** Entry `index` (0-based) renders as `"{index + 1}. {label}: {text}"`. */
  function Line(index: nat, t: Turn, userLabel: string): string {
    ShowNat(index + 1) + ". " + Label(t.speaker, userLabel) + ": " + t.text
  }

  /** `history.map((item, index) => ...)`. */
  function Lines(h: seq<Turn>, userLabel: string): (r: seq<string>)
    ensures |r| == |h|
    ensures forall i :: 0 <= i < |h| ==> r[i] == Line(i, h[i], userLabel)
  {
    seq(|h|, i requires 0 <= i < |h| => Line(i, h[i], userLabel))
  }

  /** The transcript: every entry's line, in history order, joined by blank
      lines. */
  function Render(h: seq<Turn>, userLabel: string): string {
    Join(Lines(h, userLabel), Separator)
  }

  /** Rendering one more entry appends a blank line and that entry's line,
      numbered after all earlier entries; earlier lines are untouched. */
  lemma RenderSnoc(h: seq<Turn>, t: Turn, userLabel: string)
    requires |h| > 0
    ensures Render(h + [t], userLabel)
         == Render(h, userLabel) + Separator + Line(|h|, t, userLabel)
  {
    assert Lines(h + [t], userLabel) == Lines(h, userLabel) + [Line(|h|, t, userLabel)];
    JoinSnoc(Lines(h, userLabel), Line(|h|, t, userLabel), Separator);
  }

  /** A successful exchange adds the question and the answer to the end of
      the transcript as the next two numbered lines. */
  lemma RenderExchange(h: seq<Turn>, query: string, reply: string, userLabel: string)
    requires |h| > 0
    ensures Render(h + [Turn(User, query), Turn(Ai, reply)], userLabel)
         == Render(h, userLabel)
            + Separator + Line(|h|, Turn(User, query), userLabel)
            + Separator + Line(|h| + 1, Turn(Ai, reply), userLabel)
  {
    RenderSnoc(h, Turn(User, query), userLabel);
    assert h + [Turn(User, query), Turn(Ai, reply)] == (h + [Turn(User, query)]) + [Turn(Ai, reply)];
    RenderSnoc(h + [Turn(User, query)], Turn(Ai, reply), userLabel);
  }

  /** The number in front of the line of entry `index` reads back as
      `index + 1`: the numbering is 1-based and recoverable from the text. */
  lemma LineNumber(index: nat, t: Turn, userLabel: string)
    ensures IsDigits(DigitPrefix(Line(index, t, userLabel)))
    ensures ParseNat(DigitPrefix(Line(index, t, userLabel))) == index + 1
  {
    var rest := ". " + Label(t.speaker, userLabel) + ": " + t.text;
    assert Line(index, t, userLabel) == ShowNat(index + 1) + rest;
    DigitPrefixOfNumeral(ShowNat(index + 1), rest);
    ParseShowNat(index + 1);
  }

  /** A two-entry history renders as line 1, a blank line, then line 2. */
  lemma RenderTwo(a: Turn, b: Turn, userLabel: string)
    ensures Render([a, b], userLabel)
         == "1. " + Label(a.speaker, userLabel) + ": " + a.text
            + "\n\n" + "2. " + Label(b.speaker, userLabel) + ": " + b.text
  {
    assert ShowNat(1) == "1";
    assert ShowNat(2) == "2";
    assert [a, b] == [a] + [b];
    assert Render([a], userLabel) == Line(0, a, userLabel);
    RenderSnoc([a], b, userLabel);
  }

  /** The iterative form of the map-and-join: the transcript built entry by
      entry equals `Render`. */
  method BuildTranscript(h: seq<Turn>, userLabel: string) returns (out: string)
    ensures out == Render(h, userLabel)
  {
    out := "";
    var i := 0;
    while i < |h|
      invariant 0 <= i <= |h|
      invariant out == Render(h[..i], userLabel)
    {
      assert h[..i + 1] == h[..i] + [h[i]];
      if i == 0 {
        assert Lines(h[..1], userLabel) == [Line(0, h[0], userLabel)];
        out := Line(0, h[0], userLabel);
      } else {
        RenderSnoc(h[..i], h[i], userLabel);
        out := out + Separator + Line(i, h[i], userLabel);
      }
      i := i + 1;
    }
    assert h[..i] == h;
  }
}

=== FILE: wrappers.dfy ===
/** The optional-value datatype the rest of the model uses for JavaScript's
    `null`/`undefined` alternatives. */
module Wrappers {

  datatype Option<+T> = None | Some(value: T)
}
